=== FILE: README.md ===
# Product transparency backend: a verified model

This project models the request-decision logic of a small product-transparency
application. It has two services.

- **The question generator** (`ai-service/main.py`). It reads the answers a
  client has given so far. It returns the single next question of a fixed
  questionnaire and a progress value.
- **The REST backend** (`backend/src`). It has:
  - a bearer-token gate;
  - a login route for one demo account;
  - user-management routes scoped to the caller's company;
  - product routes;
  - a report route that stores a report record and sends a PDF.

Every route handler is modelled without side effects. It takes the caller,
the request and an immutable database (`Store.Db`: maps of users, products and
reports keyed by id). The handlers that write return a reply together with the
new database. The lookups (`UserRoutes.GetUser`, `ProductRoutes.GetProduct`)
return only a reply. The user listing (`UserRoutes.ListUsers`) is a method
with a loop. Request bodies are JavaScript values
(`Js.Value`), so the source's truthiness tests (`!email`, `metadata || {}`)
are modelled exactly for every number a double holds exactly. The question generator's answers use Python values
(`QuestionFlow.PyValue`), where empty lists and dicts are also falsy.

Foreign code is represented as follows:
- JWT signing and verification are uninterpreted function parameters
  (`sign`, `verify`).
- `bcrypt.compare` is an uninterpreted parameter (`compare`).
- `bcrypt.hash` is a symbolic digest term (`Crypto.PasswordHash`).
- The PDF renderer is an opaque parameter (`render`).
- Database exceptions caught by a handler's try block are a `fault` flag.
- Database-assigned ids, the clock and the table scan order are parameters.

The PDF generator (`backend/src/utils/pdf.ts:10-26`) prints the product
name, the company, the metadata as JSON and, when the product has questions,
each question's text and answer. It computes no score. It is represented by
the opaque `render` parameter.

The user and product handlers destructure `req.body` with no fallback, so
they require a body that is not `null` or `undefined`. The JSON body parser
always supplies at least `{}`. The login and report routes read `req.body || {}`
and accept any body.

Tenant isolation is stated once, as `Store.Isolated`, and proved for every
mutating handler. A handler run for company C leaves every user and product
of other companies unchanged. It adds or changes only reports about C's
products.

## Model

| member | source | states |
|---|---|---|
| QuestionFlow.GenerateQuestions | ai-service/main.py:37-62 | Exactly one question is returned. It is a base question or the notes follow-up. Progress is 2/3 or 1, and it is 1 exactly when the notes question is returned. Notes is returned iff all three base questions are answered. |
| QuestionFlow.EffectiveAnswers | ai-service/main.py:46 | A missing answers map is read as the empty map. A present map is used as given. |
| QuestionFlow.FirstUnansweredFrom | ai-service/main.py:49-54 | The reference sequencing rule. It returns the index of the first unanswered base question at or after i, and every question before that index is answered. |
| QuestionFlow.GenerateFollowsStage | ai-service/main.py:49-60 | The if/elif chain asks exactly the question of the reference rule. Its progress is 2/3 while a base question remains and 1 afterwards. |
| QuestionFlow.AskedInPriorityOrder | ai-service/main.py:49-54 | Base question k is asked only if questions 0..k-1 are answered and question k is not. |
| QuestionFlow.EmptyStringIsUnanswered | ai-service/main.py:49 | An empty-string answer to origin_country counts as missing, so origin_country is asked again. |
| QuestionFlow.MissingAnswersAreEmpty | ai-service/main.py:46 | A null answers map gives the same response as the empty map, which asks for the country of origin. |
| QuestionFlow.OnlyAnswersMatter | ai-service/main.py:46-62 | Two requests with the same answers get the same response, whatever their name and metadata. |
| QuestionFlow.AnsweringAdvances | ai-service/main.py:49-54 | Giving a truthy answer to the question being asked strictly advances the questionnaire. |
| QuestionFlow.MoreAnswersNeverGoBack | ai-service/main.py:49-54 | If every truthy answer stays truthy, the questionnaire never moves back to an earlier question. |
| QuestionFlow.StageSkipsAnswered | ai-service/main.py:49-54 | When questions 0..i-1 are answered, no question before i is asked. |
| AuthMiddleware.Secret | backend/src/middleware/auth.ts:15 | The signing secret is JWT_SECRET when it is set and non-empty, and "dev-secret" otherwise. It is never empty. |
| AuthMiddleware.BearerToken | backend/src/middleware/auth.ts:10 | A token is extracted iff the header starts with the exact, case-sensitive "Bearer ". The header is then "Bearer " followed by the token. |
| AuthMiddleware.RequireAuth | backend/src/middleware/auth.ts:8-22 | Without the prefix, or with nothing after it, the answer is 401 "Unauthorized". A rejected token gets 401 "Invalid token". Next runs iff the token is non-empty and verifies, and the user is then the verified payload. |
| AuthMiddleware.BearerTokenOfHeader | backend/src/middleware/auth.ts:10 | Extracting the token from "Bearer " + t gives back t. |
| AuthMiddleware.EmptyBearerIsUnauthorized | backend/src/middleware/auth.ts:10-12 | The header "Bearer " is answered "Unauthorized", never "Invalid token". |
| AuthMiddleware.MissingHeaderIsUnauthorized | backend/src/middleware/auth.ts:9-12 | A missing header behaves like the empty header and is rejected with 401 "Unauthorized". |
| AuthMiddleware.LowerCaseSchemeIsUnauthorized | backend/src/middleware/auth.ts:10-12 | A lower-case "bearer " scheme is rejected as "Unauthorized". |
| AuthMiddleware.AcceptsVerifiedBearer | backend/src/middleware/auth.ts:16-18 | A non-empty token that verifies lets the request through with exactly its payload. |
| AuthRoutes.Login | backend/src/routes/auth.ts:15-26 | A missing or falsy email or password gets 400. After that a wrong email gets 401, and a failed comparison gets 401 with the same message. Success iff the email is the demo email and the password is a string that matches. On success the token signs exactly {companyId "company-001", demo email}. The request throws exactly when the email is the demo email and the password is truthy but not a string. |
| AuthRoutes.AbsentBodyIsEmpty | backend/src/routes/auth.ts:16-17 | An absent body is read as {} and refused with 400. |
| AuthRoutes.WrongEmailIgnoresPassword | backend/src/routes/auth.ts:19 | A wrong email is refused whatever the password comparison would say. |
| AuthRoutes.LoginTokenPassesGate | backend/src/routes/auth.ts:24 | If verify accepts what sign produced under the same secret, a login token passes the bearer gate as the demo company. |
| UserRoutes.ListUsers | backend/src/routes/users.ts:9-29 | Without a fault the reply holds each user of the caller's company exactly once, as its selected columns, newest first. A database error gives 500. |
| UserRoutes.GetUser | backend/src/routes/users.ts:32-56 | The user is returned iff it belongs to the caller's company and no fault occurs. Otherwise the answer is 404 "User not found". |
| UserRoutes.RequestedRole | backend/src/routes/users.ts:60-69 | The role passes the whitelist iff it is absent or is itself ADMIN, MANAGER or VIEWER. An explicit null or empty role is refused. |
| UserRoutes.CreateUser | backend/src/routes/users.ts:59-105 | Missing fields get 400, and this check runs before the role whitelist, which also answers 400. An email used in any company gets 400 User already exists, exactly when the earlier checks pass, no fault occurs and the email is a string. Every other failure is 500 Failed to create user. Success iff there is no fault, the fields are non-empty strings, the role is whitelisted and the email is unused. Success adds exactly one user, with the caller's company, the hash of the password, both timestamps set to the clock, and the role as requested or "VIEWER" when the role is absent. Failures leave the database unchanged. Email uniqueness and isolation are kept. |
| UserRoutes.UpdateUser | backend/src/routes/users.ts:108-146 | A user of another company gets 404 with no change. A falsy email, name or role keeps the old value. isActive changes whenever it is given, also to false. The role is not whitelisted. Only that user changes. Every thrown error, including a duplicate email, gets 404. |
| UserRoutes.ChangePassword | backend/src/routes/users.ts:149-180 | A missing password gets 400 before any lookup. On success only that user's password digest changes. Every other failure gets 404 and leaves the database unchanged. |
| UserRoutes.DeleteUser | backend/src/routes/users.ts:183-207 | The company check comes first (404), then the self-deletion ban (400). Success removes exactly that user. |
| UserRoutes.GetUserSeesOnlyOwnCompany | backend/src/routes/users.ts:34-50 | The lookup's answer depends only on the caller's company's users. |
| UserRoutes.CreateSeesForeignEmails | backend/src/routes/users.ts:72-75 | The existing-user check is global: an email held by another company's user turns a creation that would succeed into 400 "User already exists". |
| UserRoutes.UpdateStoresUncheckedRole | backend/src/routes/users.ts:125-128 | An update stores a role outside ADMIN/MANAGER/VIEWER unchanged. |
| UserRoutes.CreateThenGet | backend/src/routes/users.ts:81-100 | A created user is found by a later lookup from the same company, exactly as the creation answered it. |
| UserRoutes.UpdateThenGet | backend/src/routes/users.ts:122-141 | An updated user is read back exactly as the update answered it. |
| UserRoutes.DeleteThenGet | backend/src/routes/users.ts:201-202 | After a successful delete, the lookup of that id answers 404. |
| ProductRoutes.ValidationErrors | backend/src/routes/products.ts:11-12 | There are no errors iff name is a non-empty string and metadata is absent or a plain object. Each failing field is reported, name before metadata. |
| ProductRoutes.CreateProduct | backend/src/routes/products.ts:8-35 | An invalid body gets 400 and nothing is stored. Otherwise the answer is 201 with the body's name, the body's metadata object or {} when it is absent, both timestamps set to the clock, and the caller's company. Without a fault exactly that product is inserted. With a fault nothing is stored and the echo uses the clock as its id. |
| ProductRoutes.GetProduct | backend/src/routes/products.ts:37-42 | The product, with all its stored columns, is returned iff it belongs to the caller's company. Exactly the reports whose productId is that product come with it. Otherwise the answer is 404 "Not found". |
| ProductRoutes.GetProductSeesOnlyOwnCompany | backend/src/routes/products.ts:39-40 | The product lookup's answer depends only on the caller's company's products and reports. |
| ProductRoutes.FaultEchoesSameProduct | backend/src/routes/products.ts:19-32 | On a database error the 201 answer equals the stored-product answer except for its id. |
| ProductRoutes.CreateThenGet | backend/src/routes/products.ts:19 | A stored product is found by a later lookup from the same company, with the answered fields and no reports. |
| ProductRoutes.CreateKeepsReportsReferenced | backend/src/routes/products.ts:19 | Creating a product keeps every report pointing at a stored product. |
| ReportRoutes.CreateReport | backend/src/routes/reports.ts:8-20 | A falsy productId gets 400. A non-integer Number(productId) throws. A product that is missing or not the caller's gets 404. These leave the database unchanged. An integer id of one of the caller's products is always answered 200. On success exactly one report record is added, for that product, with fileName report_<id>.pdf. The download has type application/pdf and a disposition naming that same fileName. |
| ReportRoutes.ZeroProductIdIsRequired | backend/src/routes/reports.ts:9-10 | A productId of 0, or an absent body, is refused with 400. |
| ReportRoutes.NumericStringNamesProduct | backend/src/routes/reports.ts:11 | A productId sent as a decimal string selects the same product as the number. |
| ReportRoutes.FileNameInjective | backend/src/routes/reports.ts:15 | Different product ids never give the same report file name. |
| ReportRoutes.CreateKeepsReportsReferenced | backend/src/routes/reports.ts:11-15 | A new report record always refers to a stored product. |
| ReportRoutes.CreateThenListed | backend/src/routes/reports.ts:15 | After a download, the product's lookup lists the new report with fileName report_<id>.pdf. |
| Decimal.ParseIntOfIntToString | backend/src/routes/reports.ts:15 | Reading back the decimal rendering of an id gives the id. |
| Decimal.IntToStringInjective | backend/src/routes/reports.ts:15 | Distinct ids render as distinct strings. |
| Js.Or | backend/src/routes/auth.ts:16 | A truthy left operand is the result. The result is always one of the two operands, and it is truthy iff either operand is. |
| Js.ToInteger | backend/src/routes/reports.ts:11 | An id is handed to the query iff Number(productId) is an integer, and it is that integer. |

## Left out

- The PDF content (`backend/src/utils/pdf.ts`) is an opaque `render` parameter, because the document library is foreign code. No score, category weights or recommendations are modelled: the code has none.
- The frontend (`frontend/src`) is left out. It is a UI that only calls these routes.
- Server wiring is left out: `backend/src/server/app.ts`, `backend/src/index.ts`, CORS, logging and body-size limits.
- The users router is modelled as if it were mounted behind an admin check. `requireAdmin` and `AuthRequest` are imported from a module that does not define them, and `backend/src/server/app.ts:20-22` does not mount the router. Admin-ness is assumed.
- UserRoutes.DeleteUser takes the caller's own user id as a parameter. Tokens issued by `/login` carry no `userId`, so as wired, `Number(req.user.userId)` would be NaN and the ban would never fire.
- JWT expiry (`expiresIn: '8h'`) and other claims are left to the uninterpreted `sign` and `verify`. `verify`'s payload is taken to have the cast's shape.
- Crypto.Hash: bcrypt salts and the cost factor are not represented. The digest is a symbolic term, so two hashes of the same password are equal in the model.
- Progress in the question service is an exact rational, not a binary float.
- Js.Value and QuestionFlow.PyValue: JSON numbers are exact reals, not IEEE doubles. A literal a double cannot hold is not rounded the way the parsers round it. Examples are one that underflows to 0 (`1e-400`), one with more than 17 significant digits (`1.0000000000000001`) and one that overflows to Infinity. So the model treats `{"productId": 1e-400}` as a non-integer rather than as a falsy 0.
- Js.ToNumber: only plain decimal-digit strings convert. Whitespace, signs, fractions, exponents, hex and arrays are treated as NaN. NaN itself cannot occur in a JSON body.
- Path ids (`Number(req.params.id)`) are given as integers. Parsing of the path segment is not modelled.
- Database behaviour is simplified.
  - Exceptions inside a try block are one `fault` flag, raised before any write.
  - Truthy non-string fields, duplicate emails on update and wrong-typed `isActive` are modelled as the exceptions they raise. On update this treats every object value as an error.
  - Database errors in the product lookup and the report route (no try block) are not modelled.
- Ids, timestamps and the table scan order are parameters.
- `updatedAt` maintenance on update is not modelled.
- UserRoutes.UpdateUser: answers 404 for object-valued fields. The database client may instead accept its field-operation form, such as `{"set": false}`, and update the row. The client's input rules are not part of this model.
- The `isActive` default for new users is taken as true, because the database schema is not part of this model.
- The role column is a plain string, because whether the database enforces an enum is unknown.
- ProductRoutes.ValidationErrors reports one entry per failing field, not one per failing validator. It omits the error objects' other fields and express-validator's element-wise checking of array values.
- Questions attached to products (`include: { questions: true }` in `backend/src/routes/products.ts:39` and `backend/src/routes/reports.ts:11`) are not modelled. No code in this model writes them. The product lookup's answer leaves them out, and the renderer receives the product without them.

=== FILE: auth_middleware.dfy ===
/**
 * The bearer-token gate that every product and report route runs first.
 * JWT verification is an uninterpreted parameter: `verify(token, secret)`
 * returns the payload of a valid token and `None` where jsonwebtoken throws.
 */
module AuthMiddleware {
  import opened Options

  /** The payload a token carries, which becomes `req.user`. */
  datatype Claims = Claims(companyId: string, email: string)

  type Verifier = (string, string) -> Option<Claims>

  const DevSecret := "dev-secret"

  /** `process.env.JWT_SECRET || 'dev-secret'`: an unset or empty variable falls back. */
  function Secret(env: Option<string>): (s: string)
    ensures s != ""
    ensures env.Some? && env.value != "" ==> s == env.value
    ensures env.None? || env.value == "" ==> s == DevSecret
  {
    match env
    case Some(v) => if v != "" then v else DevSecret
    case None => DevSecret
  }

  const BearerPrefix := "Bearer "

  /** The header value a client sends for a token. */
  function BearerHeader(token: string): string {
    BearerPrefix + token
  }

  /** `header.startsWith('Bearer ')`, case-sensitive. */
  predicate HasBearerPrefix(header: string) {
    |header| >= |BearerPrefix| && header[..|BearerPrefix|] == BearerPrefix
  }

  /** `header.startsWith('Bearer ') ? header.slice(7) : null`; `None` is null. */
  function BearerToken(header: string): (t: Option<string>)
    ensures t.Some? <==> HasBearerPrefix(header)
    ensures t.Some? ==> header == BearerHeader(t.value)
  {
    if HasBearerPrefix(header) then Some(header[7..]) else None
  }

  /** The two ways the gate ends a request, or the call of `next` with the user. */
  datatype Gate = Next(user: Claims) | Reject(status: int, error: string)

  /**
   * `requireAuth`: a missing Authorization header reads as "". Without the
   * prefix, or with nothing after it, the answer is 401 "Unauthorized";
   * a token the verifier refuses gets 401 "Invalid token"; otherwise `next`
   * runs once with the verified payload as the user.
   */
  function RequireAuth(authorization: Option<string>, env: Option<string>, verify: Verifier): (g: Gate)
    ensures var h := authorization.GetOr("");
            (g == Reject(401, "Unauthorized")) <==> (!HasBearerPrefix(h) || |h| == |BearerPrefix|)
    ensures var h := authorization.GetOr("");
            g.Next? <==> HasBearerPrefix(h) && |h| > |BearerPrefix|
                         && verify(h[|BearerPrefix|..], Secret(env)).Some?
    ensures var h := authorization.GetOr("");
            g.Next? ==> verify(h[|BearerPrefix|..], Secret(env)) == Some(g.user)
    ensures g.Reject? ==> g.status == 401 && (g.error == "Unauthorized" || g.error == "Invalid token")
  {
    var header := authorization.GetOr("");
    var token := BearerToken(header);
    if token.None? || token.value == "" then
      Reject(401, "Unauthorized")
    else
      match verify(token.value, Secret(env))
      case Some(payload) => Next(payload)
      case None => Reject(401, "Invalid token")
  }

  /** Extracting the token from a bearer header gives the token back. */
  lemma BearerTokenOfHeader(token: string)
    ensures BearerToken(BearerHeader(token)) == Some(token)
  {
  }

  /** A header that is exactly the prefix carries an empty token: "Unauthorized", never a verify call. */
  lemma EmptyBearerIsUnauthorized(env: Option<string>, verify: Verifier)
    ensures RequireAuth(Some("Bearer "), env, verify) == Reject(401, "Unauthorized")
  {
  }

  /** A missing header is treated as the empty one and is rejected. */
  lemma MissingHeaderIsUnauthorized(env: Option<string>, verify: Verifier)
    ensures RequireAuth(None, env, verify) == RequireAuth(Some(""), env, verify)
    ensures RequireAuth(None, env, verify) == Reject(401, "Unauthorized")
  {
  }

  /** The prefix test is case-sensitive: a lower-case scheme is rejected. */
  lemma LowerCaseSchemeIsUnauthorized(token: string, env: Option<string>, verify: Verifier)
    ensures RequireAuth(Some("bearer " + token), env, verify) == Reject(401, "Unauthorized")
  {
  }

  /** A non-empty token the verifier accepts lets the request through with its payload. */
  lemma AcceptsVerifiedBearer(token: string, env: Option<string>, verify: Verifier)
    requires token != ""
    requires verify(token, Secret(env)).Some?
    ensures RequireAuth(Some(BearerHeader(token)), env, verify) == Next(verify(token, Secret(env)).value)
  {
  }
}

=== FILE: auth_routes.dfy ===
/**
 * The `/login` route: a single in-memory demo account. `compare` stands for
 * `bcrypt.compare` and `sign` for `jwt.sign`; both are uninterpreted.
 */
module AuthRoutes {
  import opened Options
  import opened Js
  import opened Http
  import opened Crypto
  import opened AuthMiddleware

  const DemoEmail := "company@example.com"
  const DemoPassword := "demo1234"
  const DemoCompanyId := "company-001"

  /** The digest computed once at start-up for the demo account. */
  const DemoPasswordHash := Hash(DemoPassword)

  /** The payload of every token this route issues (the 8-hour expiry is left to `sign`). */
  const DemoClaims := Claims(DemoCompanyId, DemoEmail)

  type Comparer = (string, PasswordHash) -> bool
  type Signer = (Claims, string) -> string

  datatype TokenBody = TokenBody(token: string)

  const CredentialsRequired := Message("Email and password required")
  const InvalidCredentials := Message("Invalid credentials")

  /** The email field of `req.body || {}`. */
  function EmailOf(body: Value): Value {
    Prop(Or(body, Obj(map[])), "email")
  }

  /** The password field of `req.body || {}`. */
  function PasswordOf(body: Value): Value {
    Prop(Or(body, Obj(map[])), "password")
  }

  /**
   * Validation first (400), then the email (401), then the password
   * comparison (401, same message); success signs the demo claims. A
   * non-string password makes `bcrypt.compare` throw, outside any try.
   */
  function Login(body: Value, env: Option<string>, compare: Comparer, sign: Signer): (r: Reply<TokenBody>)
    ensures r == Err(400, CredentialsRequired) <==> !Truthy(EmailOf(body)) || !Truthy(PasswordOf(body))
    ensures r == Err(401, InvalidCredentials) <==>
              && Truthy(EmailOf(body)) && Truthy(PasswordOf(body))
              && (EmailOf(body) != Str(DemoEmail)
                  || (PasswordOf(body).Str? && !compare(PasswordOf(body).s, DemoPasswordHash)))
    ensures r.Ok? <==>
              && EmailOf(body) == Str(DemoEmail)
              && PasswordOf(body).Str? && PasswordOf(body).s != ""
              && compare(PasswordOf(body).s, DemoPasswordHash)
    ensures r.Ok? ==> r.status == 200 && r.value.token == sign(DemoClaims, Secret(env))
    ensures r.Unhandled? <==>
              EmailOf(body) == Str(DemoEmail) && Truthy(PasswordOf(body)) && !PasswordOf(body).Str?
  {
    var credentials := Or(body, Obj(map[]));
    var email := Prop(credentials, "email");
    var password := Prop(credentials, "password");
    if !Truthy(email) || !Truthy(password) then Err(400, CredentialsRequired)
    else if email != Str(DemoEmail) then Err(401, InvalidCredentials)
    else if !password.Str? then Unhandled
    else if !compare(password.s, DemoPasswordHash) then Err(401, InvalidCredentials)
    else Ok(200, TokenBody(sign(DemoClaims, Secret(env))))
  }

  /** An absent body is read as `{}` and so is refused with 400. */
  lemma AbsentBodyIsEmpty(env: Option<string>, compare: Comparer, sign: Signer)
    ensures Login(Undefined, env, compare, sign) == Login(Obj(map[]), env, compare, sign)
    ensures Login(Undefined, env, compare, sign) == Err(400, CredentialsRequired)
  {
  }

  /** A wrong email is refused without consulting the password comparison. */
  lemma WrongEmailIgnoresPassword(body: Value, env: Option<string>, c1: Comparer, c2: Comparer, sign: Signer)
    requires EmailOf(body) != Str(DemoEmail)
    ensures Login(body, env, c1, sign) == Login(body, env, c2, sign)
    ensures Login(body, env, c1, sign).Err?
  {
  }

  /**
   * End to end: when the verifier accepts what the signer produced under the
   * same secret, the token of a successful login passes the bearer gate and
   * the request runs as the demo company.
   */
  lemma LoginTokenPassesGate(body: Value, env: Option<string>, compare: Comparer, sign: Signer, verify: Verifier)
    requires Login(body, env, compare, sign).Ok?
    requires sign(DemoClaims, Secret(env)) != ""
    requires verify(sign(DemoClaims, Secret(env)), Secret(env)) == Some(DemoClaims)
    ensures RequireAuth(Some(BearerHeader(Login(body, env, compare, sign).value.token)), env, verify)
         == Next(DemoClaims)
  {
  }
}

=== FILE: crypto.dfy ===
/**
 * Password hashing, kept symbolic. `PasswordHash` is the term bcrypt(p):
 * the model never inspects it and never turns it back into a string, so a
 * field of this type holds a digest and never the password itself. Salts
 * and the cost factor are not represented.
 */
module Crypto {

  datatype PasswordHash = Bcrypt(password: string)

  /** `bcrypt.hash(password, 10)` / `bcrypt.hashSync(password, 10)`. */
  function Hash(password: string): PasswordHash {
    Bcrypt(password)
  }
}

=== FILE: decimal.dfy ===
/**
 * Decimal rendering and parsing of integers: what a JavaScript template
 * literal `${n}` prints for an integer id, and what `Number(s)` reads back
 * from a string of decimal digits.
 */
module Decimal {
  import opened Options

  predicate IsDigit(c: char) {
    '0' <= c <= '9'
  }

  predicate AllDigits(s: string) {
    forall i :: 0 <= i < |s| ==> IsDigit(s[i])
  }

  function DigitChar(d: nat): (c: char)
    requires d < 10
    ensures IsDigit(c)
  {
    "0123456789"[d]
  }

  function DigitValue(c: char): (d: nat)
    requires IsDigit(c)
    ensures d < 10
  {
    (c as int) - ('0' as int)
  }

  /** The shortest decimal spelling of `n` (no leading zeros). */
  function NatToString(n: nat): (s: string)
    ensures |s| > 0 && AllDigits(s)
    ensures |s| > 1 ==> s[0] != '0'
    decreases n
  {
    if n < 10 then [DigitChar(n)] else NatToString(n / 10) + [DigitChar(n % 10)]
  }

  /** The value of a string of decimal digits, most significant first. */
  function DigitsValue(s: string): nat
    requires AllDigits(s)
    decreases |s|
  {
    if |s| == 0 then 0 else DigitsValue(s[..|s| - 1]) * 10 + DigitValue(s[|s| - 1])
  }

  /** `Number(s)` restricted to non-empty strings of plain decimal digits. */
  function ParseNat(s: string): (r: Option<nat>)
    ensures r.Some? <==> |s| > 0 && AllDigits(s)
  {
    if |s| > 0 && AllDigits(s) then Some(DigitsValue(s)) else None
  }

  /** Template-literal rendering of an integer: a leading '-' for negatives. */
  function IntToString(i: int): (s: string)
    ensures |s| > 0
    ensures (s[0] == '-') <==> i < 0
  {
    if i < 0 then "-" + NatToString(-i) else NatToString(i)
  }

  function ParseInt(s: string): Option<int> {
    if |s| > 0 && s[0] == '-' then
      match ParseNat(s[1..])
      case Some(n) => Some(0 - n as int)
      case None => None
    else
      match ParseNat(s)
      case Some(n) => Some(n as int)
      case None => None
  }

  lemma {:induction false} DigitsValueOfNatToString(n: nat)
    ensures DigitsValue(NatToString(n)) == n
    decreases n
  {
    if n >= 10 {
      var s := NatToString(n);
      var p := NatToString(n / 10);
      assert s == p + [DigitChar(n % 10)];
      assert s[..|s| - 1] == p;
      DigitsValueOfNatToString(n / 10);
    }
  }

  /** Reading back a rendered natural number gives the number. */
  lemma ParseNatOfNatToString(n: nat)
    ensures ParseNat(NatToString(n)) == Some(n)
  {
    DigitsValueOfNatToString(n);
  }

  /** Reading back a rendered integer gives the integer. */
  lemma ParseIntOfIntToString(i: int)
    ensures ParseInt(IntToString(i)) == Some(i)
  {
    var s := IntToString(i);
    if i < 0 {
      assert s[1..] == NatToString(-i);
      ParseNatOfNatToString(-i);
    } else {
      ParseNatOfNatToString(i);
    }
  }

  /** Distinct integers are rendered as distinct strings. */
  lemma IntToStringInjective(a: int, b: int)
    requires IntToString(a) == IntToString(b)
    ensures a == b
  {
    ParseIntOfIntToString(a);
    ParseIntOfIntToString(b);
  }
}

=== FILE: http.dfy ===
/** What a route handler sends back. */
module Http {

  /** The JSON body of an error response. */
  datatype ErrorBody =
    | Message(text: string)        // { error: text }
    | FieldErrors(paths: seq<string>)  // { errors: [...] } from request validation

  /**
   * `Ok` is a success response carrying a value, `Err` an error response;
   * `Unhandled` is a handler that throws outside any try block, so that no
   * response of its own is sent.
   */
  datatype Reply<+T> =
    | Ok(status: int, value: T)
    | Err(status: int, error: ErrorBody)
    | Unhandled
}

=== FILE: js.dfy ===
/**
 * JavaScript values as they arrive in a parsed JSON request body, with the
 * language's truthiness, property access and `Number(...)` conversion.
 * NaN is not a value of this type: a JSON body cannot carry it.
 */
module Js {
  import opened Options
  import Decimal

  datatype Value =
    | Undefined
    | Null
    | Bool(b: bool)
    | Num(x: real)
    | Str(s: string)
    | Arr(items: seq<Value>)
    | Obj(fields: map<string, Value>)

  /** JavaScript truthiness: `undefined`, `null`, `false`, `0` and `""` are falsy. */
  predicate Truthy(v: Value) {
    match v
    case Undefined => false
    case Null => false
    case Bool(b) => b
    case Num(x) => x != 0.0
    case Str(s) => s != ""
    case Arr(_) => true
    case Obj(_) => true
  }

  predicate Nullish(v: Value) {
    v.Undefined? || v.Null?
  }

  /**
   * `a || b`: the first operand when it is truthy, else the second. The
   * result is one of the operands, and it is truthy iff either operand is.
   */
  function Or(a: Value, b: Value): (r: Value)
    ensures Truthy(a) ==> r == a
    ensures r == a || r == b
    ensures Truthy(r) <==> Truthy(a) || Truthy(b)
  {
    if Truthy(a) then a else b
  }

  /** `v.key` on a non-nullish value: an own field of an object, else `undefined`. */
  function Prop(v: Value, key: string): Value {
    if v.Obj? && key in v.fields then v.fields[key] else Undefined
  }

  /** `Number(v)`; `None` stands for NaN. */
  function ToNumber(v: Value): (r: Option<real>)
    ensures v.Num? ==> r == Some(v.x)
    ensures v.Str? && v.s != "" ==> (r.Some? <==> Decimal.ParseNat(v.s).Some?)
  {
    match v
    case Undefined => None
    case Null => Some(0.0)
    case Bool(b) => Some(if b then 1.0 else 0.0)
    case Num(x) => Some(x)
    case Str(s) =>
      if s == "" then Some(0.0)
      else (match Decimal.ParseNat(s)
            case Some(n) => Some(n as real)
            case None => None)
    case Arr(_) => None
    case Obj(_) => None
  }

  /** The integer a query receives for `Number(v)`, when it is one. */
  function ToInteger(v: Value): (r: Option<int>)
    ensures r.Some? ==> ToNumber(v) == Some(r.value as real)
    ensures r.Some? <==> ToNumber(v).Some? && ToNumber(v).value == ToNumber(v).value.Floor as real
  {
    match ToNumber(v)
    case Some(x) => if x == x.Floor as real then Some(x.Floor) else None
    case None => None
  }
}

=== FILE: options.dfy ===
/** The optional-value wrapper shared by every module of the model. */
module Options {

  datatype Option<+T> = None | Some(value: T) {

    /** The wrapped value, or `default` when there is none. */
    function GetOr(default: T): T {
      match this
      case Some(v) => v
      case None => default
    }
  }
}

=== FILE: products.dfy ===
/**
 * The product routes. Creation is validated by request-body rules that run
 * before the handler; a database error on insert is answered with an
 * unsaved echo of the product, still as 201 Created.
 */
module ProductRoutes {
  import opened Js
  import opened Http
  import opened Store
  import opened AuthMiddleware

  /** A product as the routes send it back. */
  datatype ProductRecord = ProductRecord(
    id: int,
    name: string,
    metadata: map<string, Value>,
    companyId: string,
    createdAt: int,
    updatedAt: int)

  /** A product with the reports that reference it (`include: { reports: true }`). */
  datatype ProductDetail = ProductDetail(product: ProductRecord, reports: map<int, Report>)

  const NotFound := Message("Not found")

  /** `body('name').isString().notEmpty()`. */
  predicate ValidName(v: Value) {
    v.Str? && v.s != ""
  }

  /** `body('metadata').optional().isObject()`: absent, or a plain object (not null, not an array). */
  predicate ValidMetadata(v: Value) {
    v.Undefined? || v.Obj?
  }

  /** The fields that failed validation, in the order the rules are declared. */
  function ValidationErrors(body: Value): (errors: seq<string>)
    ensures errors == [] <==> ValidName(Prop(body, "name")) && ValidMetadata(Prop(body, "metadata"))
    ensures "name" in errors <==> !ValidName(Prop(body, "name"))
    ensures "metadata" in errors <==> !ValidMetadata(Prop(body, "metadata"))
    ensures |errors| <= 2 && (|errors| == 2 ==> errors == ["name", "metadata"])
  {
    (if ValidName(Prop(body, "name")) then [] else ["name"])
    + (if ValidMetadata(Prop(body, "metadata")) then [] else ["metadata"])
  }

  /** `metadata || {}` for metadata that passed validation. */
  function MetadataOrEmpty(v: Value): map<string, Value>
    requires ValidMetadata(v)
  {
    if v.Obj? then v.fields else map[]
  }

  /**
   * POST /products. `newId` is the id the database assigns and `now` the
   * clock; on a database error the echoed product uses `now` as its id.
   * The company always comes from the verified caller.
   */
  function CreateProduct(caller: Claims, body: Value, db: Db, fault: bool, newId: int, now: int): (h: Handled<ProductRecord>)
    requires !Nullish(body)
    requires newId !in db.products
    ensures h.reply.Err? <==> ValidationErrors(body) != []
    ensures h.reply.Err? ==> h.reply == Err(400, FieldErrors(ValidationErrors(body))) && h.db == db
    ensures h.reply.Ok? || h.reply.Err?
    ensures h.reply.Ok? ==>
              && h.reply.status == 201
              && h.reply.value.name == Prop(body, "name").s
              && (Prop(body, "metadata").Obj? ==> h.reply.value.metadata == Prop(body, "metadata").fields)
              && (Prop(body, "metadata").Undefined? ==> h.reply.value.metadata == map[])
              && h.reply.value.companyId == caller.companyId
              && h.reply.value.createdAt == now && h.reply.value.updatedAt == now
    ensures h.reply.Ok? && !fault ==>
              && h.reply.value.id == newId
              && newId in h.db.products
              && h.db == db.(products := db.products[newId := h.db.products[newId]])
              && h.db.products[newId] == Product(h.reply.value.name, h.reply.value.metadata, caller.companyId, now, now)
    ensures h.reply.Ok? && fault ==> h.reply.value.id == now && h.db == db
    ensures Isolated(db, h.db, caller.companyId)
  {
    var errors := ValidationErrors(body);
    if errors != [] then Handled(Err(400, FieldErrors(errors)), db)
    else
      var name := Prop(body, "name").s;
      var metadata := MetadataOrEmpty(Prop(body, "metadata"));
      if fault then
        Handled(Ok(201, ProductRecord(now, name, metadata, caller.companyId, now, now)), db)
      else
        var p := Product(name, metadata, caller.companyId, now, now);
        Handled(Ok(201, ProductRecord(newId, name, metadata, caller.companyId, now, now)),
                db.(products := db.products[newId := p]))
  }

  /** The reports about product `id`. */
  function ReportsOf(db: Db, id: int): map<int, Report> {
    map r | r in db.reports && db.reports[r].productId == id :: db.reports[r]
  }

  /** GET /products/:id: found only when the product belongs to the caller's company. */
  function GetProduct(caller: Claims, id: int, db: Db): (r: Reply<ProductDetail>)
    ensures r.Ok? <==> OwnsProduct(db.products, caller.companyId, id)
    ensures !r.Ok? ==> r == Err(404, NotFound)
    ensures r.Ok? ==>
              && r.status == 200
              && r.value.product.id == id
              && r.value.product.companyId == caller.companyId
              && r.value.product.name == db.products[id].name
              && r.value.product.metadata == db.products[id].metadata
              && r.value.product.createdAt == db.products[id].createdAt
              && r.value.product.updatedAt == db.products[id].updatedAt
              && (forall rid :: rid in r.value.reports ==> rid in CompanyReports(db, caller.companyId))
              && (forall rid :: rid in r.value.reports <==> rid in db.reports && db.reports[rid].productId == id)
              && (forall rid :: rid in r.value.reports ==> r.value.reports[rid] == db.reports[rid])
  {
    if !OwnsProduct(db.products, caller.companyId, id) then Err(404, NotFound)
    else
      var p := db.products[id];
      Ok(200, ProductDetail(ProductRecord(id, p.name, p.metadata, p.companyId, p.createdAt, p.updatedAt), ReportsOf(db, id)))
  }

  /** What the product lookup shows depends only on the caller's own company's rows. */
  lemma GetProductSeesOnlyOwnCompany(caller: Claims, id: int, db1: Db, db2: Db)
    requires SameForCompany(db1, db2, caller.companyId)
    ensures GetProduct(caller, id, db1) == GetProduct(caller, id, db2)
  {
    var c := caller.companyId;
    assert OwnsProduct(db1.products, c, id) <==> id in CompanyProducts(db1.products, c);
    if OwnsProduct(db1.products, c, id) {
      assert db1.products[id] == CompanyProducts(db1.products, c)[id];
      assert ReportsOf(db1, id) == ReportsOf(db2, id) by {
        forall r | r in ReportsOf(db1, id) ensures r in ReportsOf(db2, id) && ReportsOf(db1, id)[r] == ReportsOf(db2, id)[r] {
          assert r in CompanyReports(db1, c);
        }
        forall r | r in ReportsOf(db2, id) ensures r in ReportsOf(db1, id) {
          assert r in CompanyReports(db2, c);
        }
      }
    }
  }

  /** A database error changes nothing in the answer but the id and the saved row. */
  lemma FaultEchoesSameProduct(caller: Claims, body: Value, db: Db, newId: int, now: int)
    requires !Nullish(body)
    requires newId !in db.products
    requires ValidationErrors(body) == []
    ensures var saved, echoed := CreateProduct(caller, body, db, false, newId, now).reply,
                                 CreateProduct(caller, body, db, true, newId, now).reply;
            saved.Ok? && echoed.Ok? && saved.value.(id := now) == echoed.value
  {
  }

  /** A stored product is found by a later lookup from the same company, with no reports yet. */
  lemma CreateThenGet(caller: Claims, body: Value, db: Db, newId: int, now: int)
    requires !Nullish(body)
    requires newId !in db.products
    requires ReportsReferenceProducts(db)
    requires CreateProduct(caller, body, db, false, newId, now).reply.Ok?
    ensures var h := CreateProduct(caller, body, db, false, newId, now);
            GetProduct(caller, newId, h.db) == Ok(200, ProductDetail(h.reply.value, map[]))
  {
    var h := CreateProduct(caller, body, db, false, newId, now);
    assert forall r :: r in h.db.reports ==> h.db.reports[r].productId != newId;
    assert ReportsOf(h.db, newId).Keys == {};
  }

  /** Creating a product keeps every report pointing at a stored product. */
  lemma CreateKeepsReportsReferenced(caller: Claims, body: Value, db: Db, fault: bool, newId: int, now: int)
    requires !Nullish(body)
    requires newId !in db.products
    requires ReportsReferenceProducts(db)
    ensures ReportsReferenceProducts(CreateProduct(caller, body, db, fault, newId, now).db)
  {
  }
}

=== FILE: questions.dfy ===
/**
 * The question generator of the AI service: from the answers collected so
 * far it picks the one question to ask next and reports a progress value.
 * Progress is an exact rational here; the service computes it in floating
 * point.
 */
module QuestionFlow {
  import opened Options

  /** A JSON value as the Python service sees it after parsing. */
  datatype PyValue =
    | PyNone
    | PyBool(b: bool)
    | PyNum(x: real)
    | PyStr(s: string)
    | PyList(items: seq<PyValue>)
    | PyDict(entries: map<string, PyValue>)

  /** Python truthiness: None, False, zero and empty strings, lists and dicts are falsy. */
  predicate Truthy(v: PyValue) {
    match v
    case PyNone => false
    case PyBool(b) => b
    case PyNum(x) => x != 0.0
    case PyStr(s) => s != ""
    case PyList(items) => |items| > 0
    case PyDict(entries) => |entries| > 0
  }

  /** The request: a product name, its metadata and the optional answers so far. */
  datatype ProductData = ProductData(
    name: string,
    metadata: map<string, PyValue>,
    answers: Option<map<string, PyValue>>)

  datatype Question = Question(id: string, text: string, kind: string, required: bool)

  datatype QuestionsResponse = QuestionsResponse(nextQuestions: seq<Question>, progress: real)

  const OriginCountry := Question("origin_country", "What is the country of origin?", "text", true)
  const Materials := Question("materials", "List primary materials used.", "text", true)
  const Certifications := Question("certifications", "Any sustainability certifications?", "text", true)

  /** The base questions, in the order they are asked. */
  const BaseQuestions: seq<Question> := [OriginCountry, Materials, Certifications]

  /** The optional follow-up offered once every base question is answered. */
  const Notes := Question("notes", "Any additional notes for transparency report?", "text", false)

  /** `payload.answers or {}`: a missing or empty answers map is the empty map. */
  function EffectiveAnswers(answers: Option<map<string, PyValue>>): (m: map<string, PyValue>)
    ensures answers.None? ==> m == map[]
    ensures answers.Some? ==> m == answers.value
  {
    match answers
    case Some(a) => if |a| > 0 then a else map[]
    case None => map[]
  }

  /** `answers.get(key)` is truthy: the key is present with a truthy value. */
  predicate Answered(answers: map<string, PyValue>, key: string) {
    key in answers && Truthy(answers[key])
  }

  /** The mock LLM step: the first unanswered base question, or the notes follow-up. */
  function GenerateQuestions(payload: ProductData): (r: QuestionsResponse)
    ensures |r.nextQuestions| == 1
    ensures r.nextQuestions[0] in BaseQuestions || r.nextQuestions[0] == Notes
    ensures r.progress == 2.0 / 3.0 || r.progress == 1.0
    ensures r.progress == 1.0 <==> r.nextQuestions[0] == Notes
    ensures r.nextQuestions[0] == Notes <==>
              forall q :: q in BaseQuestions ==> Answered(EffectiveAnswers(payload.answers), q.id)
  {
    var answers := EffectiveAnswers(payload.answers);
    var next :=
      if !Answered(answers, "origin_country") then [BaseQuestions[0]]
      else if !Answered(answers, "materials") then [BaseQuestions[1]]
      else if !Answered(answers, "certifications") then [BaseQuestions[2]]
      else [];
    var progress := 1.0 - (|next| as real / 3.0);
    if |next| == 0 then QuestionsResponse([Notes], 1.0)
    else QuestionsResponse(next, progress)
  }

  /**
   * Reference definition of the sequencing rule: the index of the first base
   * question at or after `i` that is not answered, or 3 when there is none.
   */
  function FirstUnansweredFrom(answers: map<string, PyValue>, i: nat): (k: nat)
    requires i <= |BaseQuestions|
    ensures i <= k <= |BaseQuestions|
    ensures forall j :: i <= j < k ==> Answered(answers, BaseQuestions[j].id)
    ensures k < |BaseQuestions| ==> !Answered(answers, BaseQuestions[k].id)
    decreases |BaseQuestions| - i
  {
    if i == |BaseQuestions| then i
    else if !Answered(answers, BaseQuestions[i].id) then i
    else FirstUnansweredFrom(answers, i + 1)
  }

  /** How far the questionnaire has got: 0, 1 or 2 name a base question, 3 means done. */
  function Stage(answers: map<string, PyValue>): nat {
    FirstUnansweredFrom(answers, 0)
  }

  /** The question the reference rule asks at a given stage. */
  function QuestionAt(stage: nat): Question {
    if stage < |BaseQuestions| then BaseQuestions[stage] else Notes
  }

  /**
   * The service asks exactly the question of the reference rule: base
   * question k is asked iff questions 0..k-1 are answered and k is not.
   */
  lemma GenerateFollowsStage(payload: ProductData)
    ensures GenerateQuestions(payload).nextQuestions == [QuestionAt(Stage(EffectiveAnswers(payload.answers)))]
    ensures GenerateQuestions(payload).progress ==
              if Stage(EffectiveAnswers(payload.answers)) < |BaseQuestions| then 2.0 / 3.0 else 1.0
  {
  }

  /** Base question k is asked only when every earlier one is answered and k is not. */
  lemma AskedInPriorityOrder(payload: ProductData, k: nat)
    requires k < |BaseQuestions|
    requires GenerateQuestions(payload).nextQuestions[0] == BaseQuestions[k]
    ensures forall j :: 0 <= j < k ==> Answered(EffectiveAnswers(payload.answers), BaseQuestions[j].id)
    ensures !Answered(EffectiveAnswers(payload.answers), BaseQuestions[k].id)
  {
  }

  /** An empty-string answer counts as not answered. */
  lemma EmptyStringIsUnanswered(payload: ProductData)
    requires payload.answers.Some?
    requires "origin_country" in payload.answers.value
    requires payload.answers.value["origin_country"] == PyStr("")
    ensures GenerateQuestions(payload).nextQuestions == [OriginCountry]
  {
  }

  /** A missing answers map behaves like the empty one. */
  lemma MissingAnswersAreEmpty(name: string, metadata: map<string, PyValue>)
    ensures GenerateQuestions(ProductData(name, metadata, None))
         == GenerateQuestions(ProductData(name, metadata, Some(map[])))
    ensures GenerateQuestions(ProductData(name, metadata, None)).nextQuestions == [OriginCountry]
  {
  }

  /** Only the answers influence the response: name and metadata do not. */
  lemma OnlyAnswersMatter(p: ProductData, q: ProductData)
    requires p.answers == q.answers
    ensures GenerateQuestions(p) == GenerateQuestions(q)
  {
  }

  /** Giving a truthy answer to the asked base question moves the questionnaire forward. */
  lemma AnsweringAdvances(answers: map<string, PyValue>, v: PyValue)
    requires Stage(answers) < |BaseQuestions|
    requires Truthy(v)
    ensures Stage(answers[BaseQuestions[Stage(answers)].id := v]) > Stage(answers)
  {
  }

  /** When questions 0..i-1 are answered the stage is at least i. */
  lemma StageSkipsAnswered(answers: map<string, PyValue>, i: nat)
    requires i <= |BaseQuestions|
    requires forall j :: 0 <= j < i ==> Answered(answers, BaseQuestions[j].id)
    ensures Stage(answers) >= i
  {
  }

  /** Answers that stay truthy never send the questionnaire backwards. */
  lemma MoreAnswersNeverGoBack(a: map<string, PyValue>, b: map<string, PyValue>)
    requires forall key :: Answered(a, key) ==> Answered(b, key)
    ensures Stage(a) <= Stage(b)
  {
  }
}

=== FILE: reports.dfy ===
/**
 * The report route: look up one of the caller's products, record a report
 * row named after the product id, and send the rendered PDF as a download.
 * The PDF bytes come from `render`, an opaque stand-in for the document
 * library.
 */
module ReportRoutes {
  import opened Options
  import opened Js
  import opened Http
  import opened Store
  import opened AuthMiddleware
  import Decimal
  import ProductRoutes

  newtype Byte = x: int | 0 <= x < 256

  type Renderer = (int, Product) -> seq<Byte>

  datatype PdfDownload = PdfDownload(contentType: string, contentDisposition: string, body: seq<Byte>)

  const PdfContentType := "application/pdf"
  const ProductIdRequired := Message("productId is required")
  const ProductNotFound := Message("Product not found")

  /** `report_${product.id}.pdf`. */
  function FileName(productId: int): string {
    "report_" + Decimal.IntToString(productId) + ".pdf"
  }

  /** `attachment; filename="${report.fileName}"`. */
  function AttachmentHeader(fileName: string): string {
    "attachment; filename=\"" + fileName + "\""
  }

  /** The productId field of `req.body || {}`. */
  function ProductIdOf(body: Value): Value {
    Prop(Or(body, Obj(map[])), "productId")
  }

  /**
   * POST /reports. A falsy productId (absent, "", 0, false, null) is a 400;
   * `Number(productId)` that is not an integer makes the query throw with
   * no try around it; a product of another company, or none, is a 404.
   * Otherwise exactly one report row is added and the PDF is sent.
   */
  function CreateReport(caller: Claims, body: Value, db: Db, render: Renderer, newId: int): (h: Handled<PdfDownload>)
    requires newId !in db.reports
    ensures !Truthy(ProductIdOf(body)) <==> h.reply == Err(400, ProductIdRequired)
    ensures !h.reply.Ok? ==> h.db == db
    ensures h.reply.Unhandled? <==> Truthy(ProductIdOf(body)) && ToInteger(ProductIdOf(body)).None?
    ensures h.reply == Err(404, ProductNotFound) <==>
              && Truthy(ProductIdOf(body)) && ToInteger(ProductIdOf(body)).Some?
              && !OwnsProduct(db.products, caller.companyId, ToInteger(ProductIdOf(body)).value)
    ensures h.reply.Ok? <==>
              && Truthy(ProductIdOf(body)) && ToInteger(ProductIdOf(body)).Some?
              && OwnsProduct(db.products, caller.companyId, ToInteger(ProductIdOf(body)).value)
    ensures h.reply.Ok? ==>
              var pid := ToInteger(ProductIdOf(body)).value;
              && OwnsProduct(db.products, caller.companyId, pid)
              && h.reply.status == 200
              && newId in h.db.reports
              && h.db == db.(reports := db.reports[newId := h.db.reports[newId]])
              && h.db.reports[newId].productId == pid
              && h.db.reports[newId].fileName == FileName(pid)
              && h.reply.value.contentType == PdfContentType
              && h.reply.value.contentDisposition == AttachmentHeader(h.db.reports[newId].fileName)
              && h.reply.value.body == render(pid, db.products[pid])
    ensures Isolated(db, h.db, caller.companyId)
  {
    var productId := ProductIdOf(body);
    if !Truthy(productId) then Handled(Err(400, ProductIdRequired), db)
    else match ToInteger(productId)
      case None => Handled(Unhandled, db)
      case Some(pid) =>
        if !OwnsProduct(db.products, caller.companyId, pid) then Handled(Err(404, ProductNotFound), db)
        else
          var pdf := render(pid, db.products[pid]);
          var report := Report(pid, FileName(pid));
          Handled(Ok(200, PdfDownload(PdfContentType, AttachmentHeader(report.fileName), pdf)),
                  db.(reports := db.reports[newId := report]))
  }

  /** A productId of 0 is falsy and refused, like a missing one. */
  lemma ZeroProductIdIsRequired(caller: Claims, db: Db, render: Renderer, newId: int)
    requires newId !in db.reports
    ensures CreateReport(caller, Obj(map["productId" := Num(0.0)]), db, render, newId).reply == Err(400, ProductIdRequired)
    ensures CreateReport(caller, Undefined, db, render, newId).reply == Err(400, ProductIdRequired)
  {
  }

  /** A numeric string names the same product as the number. */
  lemma NumericStringNamesProduct(caller: Claims, n: nat, db: Db, render: Renderer, newId: int)
    requires newId !in db.reports
    requires n > 0
    ensures CreateReport(caller, Obj(map["productId" := Str(Decimal.IntToString(n))]), db, render, newId)
         == CreateReport(caller, Obj(map["productId" := Num(n as real)]), db, render, newId)
  {
    Decimal.ParseNatOfNatToString(n);
    var s := Decimal.IntToString(n);
    assert s == Decimal.NatToString(n);
    assert s != "";
  }

  /** Report file names identify the product: different products never share one. */
  lemma {:induction false} FileNameInjective(a: int, b: int)
    requires FileName(a) == FileName(b)
    ensures a == b
  {
    var sa, sb := Decimal.IntToString(a), Decimal.IntToString(b);
    assert FileName(a) == "report_" + sa + ".pdf";
    assert sa == FileName(a)[7..|FileName(a)| - 4];
    assert sb == FileName(b)[7..|FileName(b)| - 4];
    Decimal.IntToStringInjective(a, b);
  }

  /** A recorded report refers to a stored product. */
  lemma CreateKeepsReportsReferenced(caller: Claims, body: Value, db: Db, render: Renderer, newId: int)
    requires newId !in db.reports
    requires ReportsReferenceProducts(db)
    ensures ReportsReferenceProducts(CreateReport(caller, body, db, render, newId).db)
  {
  }

  /** After a download the product's lookup lists the new report under its file name. */
  lemma CreateThenListed(caller: Claims, body: Value, db: Db, render: Renderer, newId: int)
    requires newId !in db.reports
    requires CreateReport(caller, body, db, render, newId).reply.Ok?
    ensures var h := CreateReport(caller, body, db, render, newId);
            var pid := ToInteger(ProductIdOf(body)).value;
            var found := ProductRoutes.GetProduct(caller, pid, h.db);
            && found.Ok?
            && newId in found.value.reports
            && found.value.reports[newId] == Report(pid, FileName(pid))
  {
  }
}

=== FILE: store.dfy ===
/**
 * The database as immutable tables keyed by integer id, and what it means
 * for a handler run on behalf of one company to stay within that company.
 */
module Store {
  import opened Js
  import opened Http
  import opened Crypto

  datatype User = User(
    email: string,
    password: PasswordHash,
    name: string,
    role: string,
    isActive: bool,
    companyId: string,
    createdAt: int,
    updatedAt: int)

  datatype Product = Product(
    name: string,
    metadata: map<string, Value>,
    companyId: string,
    createdAt: int,
    updatedAt: int)

  datatype Report = Report(productId: int, fileName: string)

  datatype Db = Db(users: map<int, User>, products: map<int, Product>, reports: map<int, Report>)

  /** A handler's response together with the database after it. */
  datatype Handled<+T> = Handled(reply: Reply<T>, db: Db)

  predicate OwnsUser(users: map<int, User>, company: string, id: int) {
    id in users && users[id].companyId == company
  }

  predicate OwnsProduct(products: map<int, Product>, company: string, id: int) {
    id in products && products[id].companyId == company
  }

  /** The users of one company. */
  function CompanyUsers(users: map<int, User>, company: string): (m: map<int, User>)
    ensures forall id :: id in m <==> OwnsUser(users, company, id)
    ensures forall id :: id in m ==> id in users && m[id] == users[id]
  {
    map id | id in users && users[id].companyId == company :: users[id]
  }

  /** The users of every other company. */
  function ForeignUsers(users: map<int, User>, company: string): (m: map<int, User>)
    ensures forall id :: id in m <==> id in users && users[id].companyId != company
    ensures forall id :: id in m ==> id in users && m[id] == users[id]
  {
    users - CompanyUsers(users, company).Keys
  }

  /** The products of one company. */
  function CompanyProducts(products: map<int, Product>, company: string): (m: map<int, Product>)
    ensures forall id :: id in m <==> OwnsProduct(products, company, id)
    ensures forall id :: id in m ==> id in products && m[id] == products[id]
  {
    map id | id in products && products[id].companyId == company :: products[id]
  }

  /** The products of every other company. */
  function ForeignProducts(products: map<int, Product>, company: string): (m: map<int, Product>)
    ensures forall id :: id in m <==> id in products && products[id].companyId != company
    ensures forall id :: id in m ==> id in products && m[id] == products[id]
  {
    products - CompanyProducts(products, company).Keys
  }

  /** Reports about one company's products. */
  function CompanyReports(db: Db, company: string): (m: map<int, Report>)
    ensures forall id :: id in m <==> id in db.reports && OwnsProduct(db.products, company, db.reports[id].productId)
    ensures forall id :: id in m ==> id in db.reports && m[id] == db.reports[id]
  {
    map id | id in db.reports && OwnsProduct(db.products, company, db.reports[id].productId) :: db.reports[id]
  }

  /** Every email address is used by at most one user, across all companies. */
  ghost predicate EmailsUnique(users: map<int, User>) {
    forall a, b :: a in users && b in users && a != b ==> users[a].email != users[b].email
  }

  /** `prisma.user.findUnique({ where: { email } })` finds someone. */
  predicate EmailTaken(users: map<int, User>, email: string) {
    exists id :: id in users && users[id].email == email
  }

  /**
   * Tenant isolation: going from `db` to `db2` changed no user or product of
   * another company, and every report that is new or changed is about a
   * product of `company` while every report about another company's
   * product is kept.
   */
  ghost predicate Isolated(db: Db, db2: Db, company: string) {
    && ForeignUsers(db2.users, company) == ForeignUsers(db.users, company)
    && ForeignProducts(db2.products, company) == ForeignProducts(db.products, company)
    && (forall id :: id in db2.reports && (id !in db.reports || db2.reports[id] != db.reports[id])
           ==> OwnsProduct(db2.products, company, db2.reports[id].productId))
    && (forall id :: id in db.reports && !OwnsProduct(db.products, company, db.reports[id].productId)
           ==> id in db2.reports && db2.reports[id] == db.reports[id])
  }

  /** Two databases look the same to a caller of `company`. */
  ghost predicate SameForCompany(db1: Db, db2: Db, company: string) {
    && CompanyUsers(db1.users, company) == CompanyUsers(db2.users, company)
    && CompanyProducts(db1.products, company) == CompanyProducts(db2.products, company)
    && CompanyReports(db1, company) == CompanyReports(db2, company)
  }

  /** Every report refers to a stored product (the foreign key of the report table). */
  ghost predicate ReportsReferenceProducts(db: Db) {
    forall id :: id in db.reports ==> db.reports[id].productId in db.products
  }
}

=== FILE: users.dfy ===
/**
 * The user-management routes. Each runs after the bearer gate and the
 * admin check; the caller is the verified payload plus the caller's own user
 * id, which the issued tokens do not carry and so is passed in explicitly.
 * `fault` stands for a database error caught by the route's try block.
 */
module UserRoutes {
  import opened Js
  import opened Http
  import opened Crypto
  import opened Store
  import opened AuthMiddleware

  /** The selected columns: never the password digest, never the company. */
  datatype UserView = UserView(
    id: int,
    email: string,
    name: string,
    role: string,
    isActive: bool,
    createdAt: int,
    updatedAt: int)

  function View(id: int, u: User): UserView {
    UserView(id, u.email, u.name, u.role, u.isActive, u.createdAt, u.updatedAt)
  }

  const Roles: seq<string> := ["ADMIN", "MANAGER", "VIEWER"]
  const DefaultRole := "VIEWER"

  /** The `isActive` column default for new rows. */
  const DefaultIsActive := true

  const UserNotFound := Message("User not found")
  const FieldsRequired := Message("Email, password, and name are required")
  const InvalidRole := Message("Invalid role")
  const UserExists := Message("User already exists")
  const CreateFailed := Message("Failed to create user")
  const FetchFailed := Message("Failed to fetch users")
  const PasswordRequired := Message("Password is required")
  const PasswordUpdated := "Password updated successfully"
  const CannotDeleteSelf := Message("Cannot delete your own account")
  const UserDeleted := "User deleted successfully"

  /**
   * `role = 'VIEWER'` in the destructuring: the default replaces only
   * `undefined`, so an absent role always passes the whitelist while an
   * explicit `null`, `""` or `false` is kept and refused.
   */
  function RequestedRole(body: Value): (r: Value)
    ensures !r.Undefined?
    ensures ValidRole(r) <==> Prop(body, "role").Undefined? || ValidRole(Prop(body, "role"))
  {
    var role := Prop(body, "role");
    if role.Undefined? then Str(DefaultRole) else role
  }

  /** `['ADMIN', 'MANAGER', 'VIEWER'].includes(role)`, a strict-equality test. */
  predicate ValidRole(role: Value) {
    role.Str? && role.s in Roles
  }

  /** A non-empty string, the only truthy value the database and bcrypt accept here. */
  predicate NonEmptyString(v: Value) {
    v.Str? && v.s != ""
  }

  // ---------------------------------------------------------------- list

  predicate SortedNewestFirst(vs: seq<UserView>) {
    forall i, j :: 0 <= i < j < |vs| ==> vs[i].createdAt >= vs[j].createdAt
  }

  predicate DistinctIds(vs: seq<UserView>) {
    forall i, j :: 0 <= i < j < |vs| ==> vs[i].id != vs[j].id
  }

  function IdsOf(vs: seq<UserView>): set<int> {
    set i | 0 <= i < |vs| :: vs[i].id
  }

  /** Every entry is the current view of the user row it names. */
  predicate ViewsOfRows(vs: seq<UserView>, users: map<int, User>) {
    forall i :: 0 <= i < |vs| ==> vs[i].id in users && vs[i] == View(vs[i].id, users[vs[i].id])
  }

  /**
   * `findMany({ where: { companyId }, orderBy: { createdAt: 'desc' } })`:
   * each user of the company exactly once, newest first (ties in any order).
   */
  predicate IsCompanyListing(vs: seq<UserView>, users: map<int, User>, company: string) {
    && ViewsOfRows(vs, users)
    && DistinctIds(vs)
    && IdsOf(vs) == CompanyUsers(users, company).Keys
    && SortedNewestFirst(vs)
  }

  /** Where a row created at `t` goes in a newest-first listing: after every row not older. */
  method InsertionIndex(vs: seq<UserView>, t: int) returns (k: nat)
    requires SortedNewestFirst(vs)
    ensures k <= |vs|
    ensures forall i :: 0 <= i < k ==> vs[i].createdAt >= t
    ensures forall i :: k <= i < |vs| ==> vs[i].createdAt < t
  {
    k := 0;
    while k < |vs| && vs[k].createdAt >= t
      invariant k <= |vs|
      invariant forall i :: 0 <= i < k ==> vs[i].createdAt >= t
    {
      k := k + 1;
    }
  }

  lemma IdsOfInsert(vs: seq<UserView>, k: nat, v: UserView)
    requires k <= |vs|
    ensures IdsOf(vs[..k] + [v] + vs[k..]) == IdsOf(vs) + {v.id}
  {
    var ws := vs[..k] + [v] + vs[k..];
    forall x | x in IdsOf(ws) ensures x in IdsOf(vs) + {v.id} {
      var i :| 0 <= i < |ws| && ws[i].id == x;
      if i < k { assert ws[i] == vs[i]; }
      else if i > k { assert ws[i] == vs[i - 1]; }
    }
    forall x | x in IdsOf(vs) + {v.id} ensures x in IdsOf(ws) {
      if x == v.id {
        assert ws[k].id == x;
      } else {
        var i :| 0 <= i < |vs| && vs[i].id == x;
        if i < k { assert ws[i] == vs[i]; } else { assert ws[i + 1] == vs[i]; }
      }
    }
  }

  lemma InsertKeepsSorted(vs: seq<UserView>, k: nat, v: UserView)
    requires SortedNewestFirst(vs)
    requires k <= |vs|
    requires forall i :: 0 <= i < k ==> vs[i].createdAt >= v.createdAt
    requires forall i :: k <= i < |vs| ==> vs[i].createdAt < v.createdAt
    ensures SortedNewestFirst(vs[..k] + [v] + vs[k..])
  {
  }

  lemma InsertKeepsDistinct(vs: seq<UserView>, k: nat, v: UserView)
    requires DistinctIds(vs)
    requires v.id !in IdsOf(vs)
    requires k <= |vs|
    ensures DistinctIds(vs[..k] + [v] + vs[k..])
  {
  }

  lemma InsertKeepsViews(vs: seq<UserView>, k: nat, v: UserView, users: map<int, User>)
    requires ViewsOfRows(vs, users)
    requires v.id in users && v == View(v.id, users[v.id])
    requires k <= |vs|
    ensures ViewsOfRows(vs[..k] + [v] + vs[k..], users)
  {
  }

  /** The ids among the first `n` scanned rows that belong to `company`. */
  function ScannedOwnIds(scan: seq<int>, n: nat, users: map<int, User>, company: string): set<int>
    requires n <= |scan|
  {
    set j | 0 <= j < n && OwnsUser(users, company, scan[j]) :: scan[j]
  }

  /**
   * GET /users: the caller's company's users, newest first. `scan` is the
   * order in which the database reads the table: every row id once.
   */
  method ListUsers(caller: Claims, db: Db, scan: seq<int>, fault: bool) returns (reply: Reply<seq<UserView>>)
    requires forall id :: id in db.users <==> id in scan
    requires forall i, j :: 0 <= i < j < |scan| ==> scan[i] != scan[j]
    ensures fault ==> reply == Err(500, FetchFailed)
    ensures !fault ==> reply.Ok? && reply.status == 200
                       && IsCompanyListing(reply.value, db.users, caller.companyId)
  {
    if fault {
      return Err(500, FetchFailed);
    }
    var c := caller.companyId;
    var listing: seq<UserView> := [];
    var n := 0;
    while n < |scan|
      invariant n <= |scan|
      invariant IdsOf(listing) == ScannedOwnIds(scan, n, db.users, c)
      invariant ViewsOfRows(listing, db.users)
      invariant DistinctIds(listing)
      invariant SortedNewestFirst(listing)
    {
      var id := scan[n];
      assert ScannedOwnIds(scan, n + 1, db.users, c)
          == ScannedOwnIds(scan, n, db.users, c) + (if OwnsUser(db.users, c, id) then {id} else {});
      if OwnsUser(db.users, c, id) {
        assert id !in ScannedOwnIds(scan, n, db.users, c);
        var v := View(id, db.users[id]);
        var k := InsertionIndex(listing, v.createdAt);
        InsertKeepsSorted(listing, k, v);
        InsertKeepsDistinct(listing, k, v);
        InsertKeepsViews(listing, k, v, db.users);
        IdsOfInsert(listing, k, v);
        listing := listing[..k] + [v] + listing[k..];
      }
      n := n + 1;
    }
    assert ScannedOwnIds(scan, n, db.users, c) == CompanyUsers(db.users, c).Keys by {
      forall id | id in CompanyUsers(db.users, c).Keys ensures id in ScannedOwnIds(scan, n, db.users, c) {
        var j :| 0 <= j < |scan| && scan[j] == id;
      }
    }
    return Ok(200, listing);
  }

  // ---------------------------------------------------------------- get

  /** GET /users/:id: the user, only when it belongs to the caller's company. */
  function GetUser(caller: Claims, id: int, db: Db, fault: bool): (r: Reply<UserView>)
    ensures r.Ok? <==> !fault && OwnsUser(db.users, caller.companyId, id)
    ensures r.Ok? ==> r.status == 200 && r.value.id == id
                      && r.value == View(id, CompanyUsers(db.users, caller.companyId)[id])
    ensures !r.Ok? ==> r == Err(404, UserNotFound)
  {
    if fault || !OwnsUser(db.users, caller.companyId, id) then Err(404, UserNotFound)
    else Ok(200, View(id, db.users[id]))
  }

  // ---------------------------------------------------------------- create

  function EmailOf(body: Value): Value { Prop(body, "email") }
  function PasswordOf(body: Value): Value { Prop(body, "password") }
  function NameOf(body: Value): Value { Prop(body, "name") }

  /** `!email || !password || !name` is false: all three fields are truthy. */
  predicate HasRequiredFields(body: Value) {
    Truthy(EmailOf(body)) && Truthy(PasswordOf(body)) && Truthy(NameOf(body))
  }

  /**
   * POST /users. Checks run in the source's order: the three required
   * fields, the role whitelist, then (inside the try block) the global email
   * lookup, hashing and the insert. A truthy non-string email, password or
   * name is refused by the database query or by bcrypt: the catch answers 500.
   */
  function CreateUser(caller: Claims, body: Value, db: Db, fault: bool, newId: int, now: int): (h: Handled<UserView>)
    requires !Nullish(body)
    requires newId !in db.users
    ensures h.reply == Err(400, FieldsRequired) <==> !HasRequiredFields(body)
    ensures h.reply == Err(400, InvalidRole) <==> HasRequiredFields(body) && !ValidRole(RequestedRole(body))
    ensures h.reply == Err(400, UserExists) <==>
              && HasRequiredFields(body) && ValidRole(RequestedRole(body))
              && !fault && EmailOf(body).Str? && EmailTaken(db.users, EmailOf(body).s)
    ensures h.reply.Ok? || h.reply == Err(400, FieldsRequired) || h.reply == Err(400, InvalidRole)
            || h.reply == Err(400, UserExists) || h.reply == Err(500, CreateFailed)
    ensures h.reply.Ok? <==>
              && !fault
              && NonEmptyString(EmailOf(body)) && NonEmptyString(PasswordOf(body)) && NonEmptyString(NameOf(body))
              && ValidRole(RequestedRole(body))
              && !EmailTaken(db.users, EmailOf(body).s)
    ensures !h.reply.Ok? ==> h.db == db
    ensures h.reply.Ok? ==>
              && h.reply.status == 201
              && newId in h.db.users
              && h.db == db.(users := db.users[newId := h.db.users[newId]])
              && var u := h.db.users[newId];
                 && u.email == EmailOf(body).s
                 && u.password == Hash(PasswordOf(body).s)
                 && u.name == NameOf(body).s
                 && u.role == (if Prop(body, "role").Undefined? then DefaultRole else Prop(body, "role").s)
                 && u.role in Roles
                 && u.isActive == DefaultIsActive
                 && u.companyId == caller.companyId
                 && u.createdAt == now && u.updatedAt == now
                 && h.reply.value == View(newId, u)
    ensures Isolated(db, h.db, caller.companyId)
    ensures EmailsUnique(db.users) ==> EmailsUnique(h.db.users)
  {
    var email, password, name := EmailOf(body), PasswordOf(body), NameOf(body);
    var role := RequestedRole(body);
    if !HasRequiredFields(body) then Handled(Err(400, FieldsRequired), db)
    else if !ValidRole(role) then Handled(Err(400, InvalidRole), db)
    else if fault || !email.Str? then Handled(Err(500, CreateFailed), db)
    else if EmailTaken(db.users, email.s) then Handled(Err(400, UserExists), db)
    else if !password.Str? || !name.Str? then Handled(Err(500, CreateFailed), db)
    else
      var u := User(email.s, Hash(password.s), name.s, role.s, DefaultIsActive, caller.companyId, now, now);
      Handled(Ok(201, View(newId, u)), db.(users := db.users[newId := u]))
  }

  // ---------------------------------------------------------------- update

  /** `value || current` for a string column yields a string the database accepts. */
  predicate StringOrKeep(v: Value) {
    !Truthy(v) || v.Str?
  }

  function MergedString(v: Value, current: string): string
    requires StringOrKeep(v)
  {
    if Truthy(v) then v.s else current
  }

  /** `isActive !== undefined ? isActive : user.isActive` is a boolean the database accepts. */
  predicate ActiveOrKeep(v: Value) {
    v.Undefined? || v.Bool?
  }

  function MergedActive(v: Value, current: bool): bool
    requires ActiveOrKeep(v)
  {
    if v.Undefined? then current else v.b
  }

  /** Another user than `id` already has `email`: the unique index refuses the update. */
  predicate EmailUsedByOther(users: map<int, User>, id: int, email: string) {
    exists other :: other in users && other != id && users[other].email == email
  }

  /**
   * PUT /users/:id. Email, name and role keep their old value when the
   * request's is falsy; isActive changes whenever it is given, to false too.
   * The role is not checked against the whitelist here. Any exception in the
   * try block, including a value of the wrong type or an email another user
   * holds, is answered 404 "User not found".
   */
  function UpdateUser(caller: Claims, id: int, body: Value, db: Db, fault: bool): (h: Handled<UserView>)
    requires !Nullish(body)
    ensures !OwnsUser(db.users, caller.companyId, id) ==> h == Handled(Err(404, UserNotFound), db)
    ensures !h.reply.Ok? ==> h == Handled(Err(404, UserNotFound), db)
    ensures var email, name, role, active := Prop(body, "email"), Prop(body, "name"), Prop(body, "role"), Prop(body, "isActive");
            h.reply.Ok? <==>
              && !fault && OwnsUser(db.users, caller.companyId, id)
              && StringOrKeep(email) && StringOrKeep(name) && StringOrKeep(role) && ActiveOrKeep(active)
              && !EmailUsedByOther(db.users, id, MergedString(email, db.users[id].email))
    ensures h.reply.Ok? ==>
              && h.reply.status == 200
              && id in db.users && id in h.db.users
              && h.db == db.(users := db.users[id := h.db.users[id]])
              && var before, u := db.users[id], h.db.users[id];
                 && u.email == (if Truthy(Prop(body, "email")) then Prop(body, "email").s else before.email)
                 && u.name == (if Truthy(Prop(body, "name")) then Prop(body, "name").s else before.name)
                 && u.role == (if Truthy(Prop(body, "role")) then Prop(body, "role").s else before.role)
                 && u.isActive == (if Prop(body, "isActive").Undefined? then before.isActive else Prop(body, "isActive").b)
                 && u.password == before.password && u.companyId == before.companyId
                 && u.createdAt == before.createdAt && u.updatedAt == before.updatedAt
                 && h.reply.value == View(id, u)
    ensures Isolated(db, h.db, caller.companyId)
    ensures EmailsUnique(db.users) ==> EmailsUnique(h.db.users)
  {
    var email, name, role, active := Prop(body, "email"), Prop(body, "name"), Prop(body, "role"), Prop(body, "isActive");
    if fault || !OwnsUser(db.users, caller.companyId, id) then Handled(Err(404, UserNotFound), db)
    else if !StringOrKeep(email) || !StringOrKeep(name) || !StringOrKeep(role) || !ActiveOrKeep(active) then
      Handled(Err(404, UserNotFound), db)
    else
      var before := db.users[id];
      var u := before.(email := MergedString(email, before.email),
                       name := MergedString(name, before.name),
                       role := MergedString(role, before.role),
                       isActive := MergedActive(active, before.isActive));
      if EmailUsedByOther(db.users, id, u.email) then Handled(Err(404, UserNotFound), db)
      else Handled(Ok(200, View(id, u)), db.(users := db.users[id := u]))
  }

  // ---------------------------------------------------------------- password

  /**
   * PUT /users/:id/password. A missing password is refused before any
   * lookup; otherwise only that user's password digest changes.
   */
  function ChangePassword(caller: Claims, id: int, body: Value, db: Db, fault: bool): (h: Handled<string>)
    requires !Nullish(body)
    ensures !Truthy(Prop(body, "password")) ==> h == Handled(Err(400, PasswordRequired), db)
    ensures h.reply.Ok? <==>
              !fault && OwnsUser(db.users, caller.companyId, id) && NonEmptyString(Prop(body, "password"))
    ensures Truthy(Prop(body, "password")) && !h.reply.Ok? ==> h == Handled(Err(404, UserNotFound), db)
    ensures h.reply.Ok? ==>
              && h.reply == Ok(200, PasswordUpdated)
              && id in db.users
              && h.db == db.(users := db.users[id := db.users[id].(password := Hash(Prop(body, "password").s))])
    ensures Isolated(db, h.db, caller.companyId)
    ensures EmailsUnique(db.users) ==> EmailsUnique(h.db.users)
  {
    var password := Prop(body, "password");
    if !Truthy(password) then Handled(Err(400, PasswordRequired), db)
    else if fault || !OwnsUser(db.users, caller.companyId, id) || !password.Str? then Handled(Err(404, UserNotFound), db)
    else Handled(Ok(200, PasswordUpdated), db.(users := db.users[id := db.users[id].(password := Hash(password.s))]))
  }

  // ---------------------------------------------------------------- delete

  /**
   * DELETE /users/:id. The company check comes first (404), then the
   * self-deletion ban (400); success removes exactly that user.
   */
  function DeleteUser(caller: Claims, callerId: int, id: int, db: Db, fault: bool): (h: Handled<string>)
    ensures h.reply.Ok? <==> !fault && OwnsUser(db.users, caller.companyId, id) && id != callerId
    ensures h.reply.Ok? ==> h.reply == Ok(200, UserDeleted) && h.db == db.(users := db.users - {id})
    ensures (!fault && OwnsUser(db.users, caller.companyId, id) && id == callerId)
              ==> h == Handled(Err(400, CannotDeleteSelf), db)
    ensures !OwnsUser(db.users, caller.companyId, id) || fault ==> h == Handled(Err(404, UserNotFound), db)
    ensures Isolated(db, h.db, caller.companyId)
    ensures EmailsUnique(db.users) ==> EmailsUnique(h.db.users)
  {
    if fault || !OwnsUser(db.users, caller.companyId, id) then Handled(Err(404, UserNotFound), db)
    else if id == callerId then Handled(Err(400, CannotDeleteSelf), db)
    else Handled(Ok(200, UserDeleted), db.(users := db.users - {id}))
  }

  // ---------------------------------------------------------------- relations

  /** What the user lookup shows depends only on the caller's own company's users. */
  lemma GetUserSeesOnlyOwnCompany(caller: Claims, id: int, db1: Db, db2: Db, fault: bool)
    requires CompanyUsers(db1.users, caller.companyId) == CompanyUsers(db2.users, caller.companyId)
    ensures GetUser(caller, id, db1, fault) == GetUser(caller, id, db2, fault)
  {
  }

  /**
   * The email check is global: two databases that look the same to the
   * caller's company answer a creation differently when another company
   * already uses the email.
   */
  lemma CreateSeesForeignEmails(caller: Claims, body: Value, db1: Db, db2: Db, newId: int, now: int, other: int)
    requires !Nullish(body)
    requires newId !in db1.users && newId !in db2.users
    requires NonEmptyString(Prop(body, "email")) && NonEmptyString(Prop(body, "password"))
    requires NonEmptyString(Prop(body, "name")) && ValidRole(RequestedRole(body))
    requires other in db1.users && db1.users[other].companyId != caller.companyId
    requires db1.users[other].email == Prop(body, "email").s
    requires !EmailTaken(db2.users, Prop(body, "email").s)
    ensures CreateUser(caller, body, db1, false, newId, now).reply == Err(400, UserExists)
    ensures CreateUser(caller, body, db2, false, newId, now).reply.Ok?
  {
  }

  /** An update stores any string role, including one outside the creation whitelist. */
  lemma UpdateStoresUncheckedRole(caller: Claims, id: int, db: Db, role: string)
    requires EmailsUnique(db.users)
    requires OwnsUser(db.users, caller.companyId, id)
    requires role != "" && role !in Roles
    ensures var h := UpdateUser(caller, id, Obj(map["role" := Str(role)]), db, false);
            h.reply.Ok? && h.db.users[id].role == role
  {
  }

  /** A created user is found by a later lookup from the same company, as it was answered. */
  lemma CreateThenGet(caller: Claims, body: Value, db: Db, newId: int, now: int)
    requires !Nullish(body)
    requires newId !in db.users
    requires CreateUser(caller, body, db, false, newId, now).reply.Ok?
    ensures var h := CreateUser(caller, body, db, false, newId, now);
            GetUser(caller, newId, h.db, false) == Ok(200, h.reply.value)
  {
  }

  /** An updated user is read back as the update answered it. */
  lemma UpdateThenGet(caller: Claims, id: int, body: Value, db: Db)
    requires !Nullish(body)
    requires UpdateUser(caller, id, body, db, false).reply.Ok?
    ensures var h := UpdateUser(caller, id, body, db, false);
            GetUser(caller, id, h.db, false) == Ok(200, h.reply.value)
  {
  }

  /** A deleted user is no longer found. */
  lemma DeleteThenGet(caller: Claims, callerId: int, id: int, db: Db)
    requires DeleteUser(caller, callerId, id, db, false).reply.Ok?
    ensures GetUser(caller, id, DeleteUser(caller, callerId, id, db, false).db, false) == Err(404, UserNotFound)
  {
  }
}
